=== FILE: README.md ===
# NpgsqlHistoryRepository in Dafny

A model of the PostgreSQL history repository of the Npgsql Entity Framework
provider: the component that writes the SQL text a migration tool uses to
manage its migrations history table. It builds the catalog query that says
whether the table exists and reads that query's result. It also builds the
INSERT and DELETE scripts for one history row, the create-table guard
`IF NOT EXISTS (...) THEN ... END IF`, and the `IF [NOT] EXISTS(...) BEGIN`
openers that guard a migration's statements on whether its id is recorded.

Files:

- `wrappers.dfy` — `Option` (a C# reference that may be null) and `Result`
  (a returned value or a thrown argument exception).
- `strings.dfy` — module `Strings`: facts about joined texts. It covers
  where a joined text starts and ends, and whether an optional clause is
  present.
- `sql_text.dfy` — module `SqlText`: just enough of SQL's lexical rules to find
  string literals. `ReadLiteral` reads one literal, where `''` stands for a
  quote. `Literals` lists every literal body in a text. `QuoteSafe` is what an
  escaper promises about its output. The module also holds the lemmas that
  read back a quote-safe body.
- `history_repository.dfy` — module `NpgsqlHistoryRepository`: the
  configuration record, the escaper and the eight generator operations.
- `history_properties.dfy` — module `HistoryProperties`: how the operations
  relate to each other and to the escaper.

How the model is set up:

- The table coordinates are an immutable `Coordinates` record. The schema is
  an `Option`.
- The escaper is a record of three uninterpreted functions. `escapeLiteral`
  escapes a literal, `delimitIdentifier` quotes a name, and
  `delimitQualifiedIdentifier` quotes a name with its schema.
- The platform newline is an abstract `newLine` string.
- The base class's create-table script is a parameter.
- A null `row` or `migrationId` is `None`. The guard clauses become `Failure`
  results carrying `ArgumentNull` or `ArgumentEmpty` with the parameter's name.
- The source spells the catalog lookup out twice: in the existence query and
  again after `IF NOT EXISTS (` in the create guard. The two texts are the
  same character for character, so the model writes the guard's opening as
  `"IF NOT EXISTS (" + CatalogLookup`. The namespace and relation tests are
  written out separately in both operations, as the source does.

"Raw values reach the text only through the escaper" is stated in two ways:

- Noninterference. Take two generators whose escapers give the same text
  for every value a script reads, configured or per call, and the same
  newline where the script contains one. They produce the same output,
  even when the raw names, ids and escapers differ.
- Literal containment. Assume the escaper keeps its promise: every quote in
  its output is doubled. Assume also that the delimited identifiers and the
  newline carry no apostrophe. Then the string literals a SQL lexer finds in
  each script are exactly the escaped values, in order. For the delete
  script the converse holds too: it reads back as exactly the escaped id
  only if that id's escape is quote-safe. A counterexample lemma shows one
  way a broken escape fails. When the escaped id is apostrophe-free text
  followed by one lone quote, the script ends inside an unterminated
  literal.

`GetInsertScript` checks only that the row is not null (line 81). An empty
migration id is accepted and written into the script, and the model does the
same.

Every operation is a Dafny function, so the same inputs always give the same
text. Reproducible output therefore holds by construction.

## Model

| member | source | states |
|---|---|---|
| `NpgsqlHistoryRepository.ExistsSql` | src/EntityFramework7.Npgsql/Migrations/NpgsqlHistoryRepository.cs:52-75 | The query starts with the `pg_catalog` lookup. It starts with the lookup followed by `n.nspname='` if and only if a schema is configured. It always ends with `c.relname='`, the escaped table name and `';`. |
| `NpgsqlHistoryRepository.Exists` | src/EntityFramework7.Npgsql/Migrations/NpgsqlHistoryRepository.cs:77 | The value read back means "exists" unless it is the DB-null marker. Every other value, including a C# null, means the table exists. |
| `NpgsqlHistoryRepository.GetInsertScript` | src/EntityFramework7.Npgsql/Migrations/NpgsqlHistoryRepository.cs:79-96 | The script fails exactly when the row is null, with `ArgumentNull("row")`. The id is not checked for emptiness. On success it starts with `INSERT INTO`, the qualified table and ` (`. It ends with the newline, `VALUES ('`, the escaped id, `', '`, the escaped version and `');`. |
| `NpgsqlHistoryRepository.GetDeleteScript` | src/EntityFramework7.Npgsql/Migrations/NpgsqlHistoryRepository.cs:98-110 | The script fails exactly for a null id (`ArgumentNull`) or an empty id (`ArgumentEmpty`). On success it starts with `DELETE FROM`, the qualified table and the newline. It ends with ` = '`, the escaped id and `';`. |
| `NpgsqlHistoryRepository.GetCreateIfNotExistsScript` | src/EntityFramework7.Npgsql/Migrations/NpgsqlHistoryRepository.cs:112-137 | The guard starts with `IF NOT EXISTS (` and the catalog lookup. It ends with `') THEN`, the create script, a newline and `GetEndIfScript()`, the `END IF` of line 171. |
| `NpgsqlHistoryRepository.GetEndIfScript` | src/EntityFramework7.Npgsql/Migrations/NpgsqlHistoryRepository.cs:171 | The block closer starts with the keyword `END` and holds no apostrophe, so it adds no string literal to the guard it ends. The guard ends with it: see `GetCreateIfNotExistsScript` and `HistoryProperties.CreateGuardTestsRelationPredicate`. |
| `NpgsqlHistoryRepository.GetBeginIfNotExistsScript` | src/EntityFramework7.Npgsql/Migrations/NpgsqlHistoryRepository.cs:139-153 | The opener fails exactly for a null or empty id. On success it starts with `IF NOT EXISTS(SELECT * FROM`, the qualified table and ` WHERE `. It ends with the quoted escaped id, `)`, a newline and `BEGIN`. |
| `NpgsqlHistoryRepository.GetBeginIfExistsScript` | src/EntityFramework7.Npgsql/Migrations/NpgsqlHistoryRepository.cs:155-169 | The same as the NOT-opener, but it starts with `IF EXISTS(SELECT * FROM`. |
| `HistoryProperties.InsertScriptIsInsertText` | src/EntityFramework7.Npgsql/Migrations/NpgsqlHistoryRepository.cs:81-95 | Every row, including one with an empty id, is recorded by exactly this text: `INSERT INTO`, the qualified table, ` (`, the two delimited column names separated by `, `, `)`, a newline, `VALUES ('`, the escaped id, `', '`, the escaped version and `');`. |
| `HistoryProperties.DeleteScriptIsDeleteText` | src/EntityFramework7.Npgsql/Migrations/NpgsqlHistoryRepository.cs:100-109 | Every accepted id is removed by exactly this text: `DELETE FROM`, the qualified table, a newline, `WHERE `, the delimited id column, ` = '`, the escaped id and `';`. |
| `HistoryProperties.ExistsSqlWithoutSchema` | src/EntityFramework7.Npgsql/Migrations/NpgsqlHistoryRepository.cs:56-73 | Without a schema, the query is exactly the lookup, `c.relname='`, the escaped table name and `';`. |
| `HistoryProperties.ExistsSqlTestsRelationPredicate` | src/EntityFramework7.Npgsql/Migrations/NpgsqlHistoryRepository.cs:56-73 | The query is the lookup, the relation predicate and `;`. So the predicate taken from the query (after `WHERE `, without `;`) is the relation predicate: the optional namespace test, then the relation test. |
| `HistoryProperties.CreateGuardTestsRelationPredicate` | src/EntityFramework7.Npgsql/Migrations/NpgsqlHistoryRepository.cs:114-136 | The guard is exactly `IF NOT EXISTS (`, the lookup, the relation predicate, `) THEN`, the create script, a newline and `END IF`. |
| `HistoryProperties.CreateGuardEmbedsExistencePredicate` | src/EntityFramework7.Npgsql/Migrations/NpgsqlHistoryRepository.cs:58-136 | The guard tests the very predicate the existence query tests, minus the query's trailing `;`. The namespace test has the same optionality in both. |
| `HistoryProperties.BeginIfExistsIsIfBody` | src/EntityFramework7.Npgsql/Migrations/NpgsqlHistoryRepository.cs:155-169 | For an accepted id, the plain opener is `IF ` followed by the shared opener body. |
| `HistoryProperties.BeginIfNotExistsIsIfNotBody` | src/EntityFramework7.Npgsql/Migrations/NpgsqlHistoryRepository.cs:139-153 | For an accepted id, the NOT-opener is `IF `, `NOT ` and the same opener body. |
| `HistoryProperties.BeginScriptsDifferOnlyByNot` | src/EntityFramework7.Npgsql/Migrations/NpgsqlHistoryRepository.cs:139-169 | Both openers reject the same ids with the same error. For an accepted id, the plain opener starts with `IF `. The NOT-opener is the plain one with `NOT ` inserted after that `IF `. |
| `HistoryProperties.TableQueriesSeeOnlyEscapedText` | src/EntityFramework7.Npgsql/Migrations/NpgsqlHistoryRepository.cs:58-136 | Take two configurations with the same escaped table name, a schema in both or in neither, and the same escaped schema. They give the same existence query. Given also the same newline, they give the same create guard. The raw names and the escapers may differ. |
| `HistoryProperties.InsertScriptSeesOnlyEscapedText` | src/EntityFramework7.Npgsql/Migrations/NpgsqlHistoryRepository.cs:83-95 | Take two configurations with the same qualified table, delimited id and version columns, and newline. Two rows whose escaped id and escaped version agree then give the same insert script. The raw values may differ. |
| `HistoryProperties.DeleteScriptSeesOnlyEscapedText` | src/EntityFramework7.Npgsql/Migrations/NpgsqlHistoryRepository.cs:102-109 | Take two configurations with the same qualified table, delimited id column and newline. Two accepted ids with the same escaped form then give the same delete script. |
| `HistoryProperties.BeginScriptsSeeOnlyEscapedText` | src/EntityFramework7.Npgsql/Migrations/NpgsqlHistoryRepository.cs:143-168 | Take two configurations with the same qualified table, delimited id column and newline. Two accepted ids with the same escaped form then give the same openers, for both variants. |
| `HistoryProperties.RelationPredicateLiterals` | src/EntityFramework7.Npgsql/Migrations/NpgsqlHistoryRepository.cs:60-71 | Assume a quote-safe escaper for the table name and schema, an apostrophe-free lead, and a non-empty apostrophe-free text after the predicate. The predicate then holds exactly two literals when a schema is set: the escaped schema, then the escaped table name. Without a schema it holds only the escaped table name. The lexer then carries on into what follows. |
| `HistoryProperties.ExistsSqlLiterals` | src/EntityFramework7.Npgsql/Migrations/NpgsqlHistoryRepository.cs:58-71 | With a quote-safe escaper for the table name and schema, the existence query's literals are exactly the escaped schema (when one is set) and the escaped table name. No literal is left open. |
| `HistoryProperties.CreateGuardLiterals` | src/EntityFramework7.Npgsql/Migrations/NpgsqlHistoryRepository.cs:116-134 | With a quote-safe escaper for the table name and schema, the guard's own literals are exactly the table's escaped names. They come before the literals of the create script, newline and closer. |
| `HistoryProperties.CreateGuardLiteralsAreTableThenScript` | src/EntityFramework7.Npgsql/Migrations/NpgsqlHistoryRepository.cs:116-134 | The newline and the `END IF` closer add no literal. With a quote-safe escaper and an apostrophe-free newline, the guard's literals are exactly the table's escaped names followed by the create script's literals. An open literal in the create script leaves the guard open too. |
| `HistoryProperties.DeleteScriptLiterals` | src/EntityFramework7.Npgsql/Migrations/NpgsqlHistoryRepository.cs:102-109 | Assume an accepted id, a quote-safe escaper for the id, and an apostrophe-free qualified table, id column, version column and newline. The delete script then holds exactly one literal: the escaped id. |
| `HistoryProperties.DeleteScriptLiteralsExactlyWhenSafe` | src/EntityFramework7.Npgsql/Migrations/NpgsqlHistoryRepository.cs:102-109 | For an accepted id under the same apostrophe-free layout, the delete script reads back as exactly the escaped id if and only if that escaped id is quote-safe. A broken escape always shows up in the script's literals. |
| `HistoryProperties.UnescapedQuoteLeavesDeleteLiteralOpen` | src/EntityFramework7.Npgsql/Migrations/NpgsqlHistoryRepository.cs:102-109 | Assume the same apostrophe-free layout, and an escaped id made of apostrophe-free text followed by one lone quote. The delete script then ends inside an unterminated literal. Other broken escapes can close every literal instead; `DeleteScriptLiteralsExactlyWhenSafe` covers them all. |
| `HistoryProperties.InsertScriptLiterals` | src/EntityFramework7.Npgsql/Migrations/NpgsqlHistoryRepository.cs:83-95 | Assume a quote-safe escaper for the id and the version, and an apostrophe-free qualified table, both delimited columns and newline. The insert script then holds exactly two literals: the escaped id, then the escaped version. |
| `HistoryProperties.OpenerBodyLiterals` | src/EntityFramework7.Npgsql/Migrations/NpgsqlHistoryRepository.cs:144-151 | Assume a quote-safe escaper for the id, an apostrophe-free layout and an apostrophe-free lead. The opener body's only literal is then the escaped id. |
| `HistoryProperties.BeginScriptsLiterals` | src/EntityFramework7.Npgsql/Migrations/NpgsqlHistoryRepository.cs:141-168 | Assume an accepted id, a quote-safe escaper for it, and an apostrophe-free qualified table, delimited columns and newline. Each opener then holds exactly one literal: the escaped id. |

## Left out

- The constructor and its ten injected services (lines 24-50). Only the update SQL generator's escaping functions are used, and they are modelled as parameters.
- The quoting and escaping rules of `NpgsqlUpdateSqlGenerator`. That class is not part of this model, so its functions stay uninterpreted. The literal lemmas assume only its promise that the escaped output is quote-safe. They do not assume a particular rule such as quote doubling.
- The base class `HistoryRepository`. It supplies the table coordinates and `GetCreateScript()`, which are inputs here.
- `IndentedStringBuilder.AppendLines`. It is modelled as appending the create script verbatim followed by one newline, as at indentation level zero. Its line splitting and line-ending normalisation are not modelled. The model, like the code, puts nothing between `') THEN` and the create script's first line.
- The platform value of `Environment.NewLine`. It is an abstract string.
- `Check.NotNull` and `Check.NotEmpty`. That utility is not part of this model. `NotEmpty` is modelled as rejecting null and the empty string. Any further rule it may apply, such as rejecting blank strings, is not modelled.
- Null fields inside a `HistoryRow`. Both fields are plain strings.
- The runtime representation of `DBNull`, and how the existence query's result is read back. `DbValue` is either the marker or any other value. The query returns no row when the table is absent. Whether the executor turns that into the marker or into a null reference is decided outside this class. Under the rule at line 77, a null reference counts as existing. The model keeps that rule and does not guess the executor's convention.
- Running the generated SQL.
- Double-quoted identifiers in the lexer. `SqlText.Literals` does not recognise them. The containment lemmas therefore require the delimited identifiers and the newline to contain no apostrophe.
- DeleteScriptLiterals: states "exactly one literal, the escaped id" rather than "exactly one occurrence of the escaped id". With an uninterpreted escaper, the escaped table name could contain the same text.

=== FILE: history_properties.dfy ===
/** Properties relating the generators of NpgsqlHistoryRepository to each
    other and to the escaper: the create guard embeds the existence query's
    predicate, the two block openers differ only by `NOT `, raw caller
    values reach the text only through the escaper, and, when the escaper
    keeps its promise, every string literal in the output is exactly one
    escaped value. */
module HistoryProperties {
  import opened Wrappers
  import opened Strings
  import opened SqlText
  import opened NpgsqlHistoryRepository

  // ---------------------------------------------------------------------
  // The existence query and the create guard

  /** The namespace test, present only when a schema is configured. */
  function SchemaClause(repo: Repository): string {
    var c := repo.coordinates;
    if c.tableSchema.Some? then SchemaTest + Escape(repo, c.tableSchema.value) + "' AND " else ""
  }

  /** The predicate both table queries test: the optional namespace test and
      the relation test, up to the closing quote of the table name. */
  function RelationPredicate(repo: Repository): string {
    SchemaClause(repo) + RelationTest + Escape(repo, repo.coordinates.tableName) + "'"
  }

  /** The predicate of the existence query: what follows `WHERE `, without
      the statement's closing `;`. */
  function ExistencePredicate(repo: Repository): string {
    var q := ExistsSql(repo);
    if |CatalogLookup| <= |q| - 1 then q[|CatalogLookup|..|q| - 1] else ""
  }

  /** Without a schema the existence query is exactly the catalog lookup
      followed by the relation test. */
  lemma ExistsSqlWithoutSchema(repo: Repository)
    requires repo.coordinates.tableSchema.None?
    ensures ExistsSql(repo) == CatalogLookup + RelationTest + Escape(repo, repo.coordinates.tableName) + "';"
  {
    var rc := RelationTest + Escape(repo, repo.coordinates.tableName) + "';";
    assert ExistsSql(repo) == CatalogLookup + "" + rc;
    assert CatalogLookup + "" + rc == CatalogLookup + rc;
  }

  /** The existence query is the catalog lookup, the relation predicate and
      a closing `;`, so its extracted predicate is the relation predicate. */
  lemma ExistsSqlTestsRelationPredicate(repo: Repository)
    ensures ExistsSql(repo) == CatalogLookup + RelationPredicate(repo) + ";"
    ensures ExistencePredicate(repo) == RelationPredicate(repo)
  {
    var sc := SchemaClause(repo);
    var e := Escape(repo, repo.coordinates.tableName);
    calc {
      ExistsSql(repo);
      CatalogLookup + sc + (RelationTest + e + "';");
      { assert "';" == "'" + ";"; }
      CatalogLookup + sc + (RelationTest + e + ("'" + ";"));
      { RegroupClosedPredicate(CatalogLookup, sc, RelationTest, e, "'", ";"); }
      CatalogLookup + (sc + RelationTest + e + "'") + ";";
    }
    MiddleSlice(CatalogLookup, RelationPredicate(repo), ";");
  }

  /** Moves the closing quote of the relation test into the predicate and
      leaves the statement terminator outside it. */
  lemma RegroupClosedPredicate(lookup: string, schemaClause: string, relationTest: string,
                               name: string, closeQuote: string, terminator: string)
    ensures lookup + schemaClause + (relationTest + name + (closeQuote + terminator))
            == lookup + (schemaClause + relationTest + name + closeQuote) + terminator
  {
  }

  /** The create guard is `IF NOT EXISTS (`, the catalog lookup, the
      relation predicate, `) THEN`, the create script, a newline and the
      block closer. */
  lemma CreateGuardTestsRelationPredicate(repo: Repository, createScript: string)
    ensures GetCreateIfNotExistsScript(repo, createScript)
            == "IF NOT EXISTS (" + CatalogLookup + RelationPredicate(repo) + ") THEN"
               + createScript + repo.newLine + GetEndIfScript()
  {
    var sc := SchemaClause(repo);
    var e := Escape(repo, repo.coordinates.tableName);
    var rest := createScript + repo.newLine + GetEndIfScript();
    calc {
      GetCreateIfNotExistsScript(repo, createScript);
      GuardedCatalogLookup + (sc + (RelationTest + e)) + ("') THEN" + createScript + repo.newLine + GetEndIfScript());
      { assert "') THEN" + createScript + repo.newLine + GetEndIfScript() == "') THEN" + rest; }
      GuardedCatalogLookup + (sc + (RelationTest + e)) + ("') THEN" + rest);
      { assert "') THEN" == "'" + ") THEN"; }
      GuardedCatalogLookup + (sc + (RelationTest + e)) + ("'" + ") THEN" + rest);
      { GuardRegroup("IF NOT EXISTS (", CatalogLookup, sc, RelationTest, e, ") THEN", rest); }
      "IF NOT EXISTS (" + CatalogLookup + (sc + RelationTest + e + "'") + ") THEN" + rest;
      { assert ") THEN" + rest == ") THEN" + createScript + repo.newLine + GetEndIfScript(); }
      "IF NOT EXISTS (" + CatalogLookup + RelationPredicate(repo) + ") THEN"
        + createScript + repo.newLine + GetEndIfScript();
    }
  }

  /** Moves the quote closing the table name from the guard's `') THEN`
      into the relation predicate. */
  lemma GuardRegroup(opening: string, lookup: string, schemaClause: string, relationTest: string,
                     name: string, thenKeyword: string, rest: string)
    ensures (opening + lookup) + (schemaClause + (relationTest + name)) + ("'" + thenKeyword + rest)
            == opening + lookup + (schemaClause + relationTest + name + "'") + thenKeyword + rest
  {
  }

  /** The create guard tests exactly the existence query's predicate and
      follows it with `) THEN`, the create script, a newline and the block
      closer. */
  lemma CreateGuardEmbedsExistencePredicate(repo: Repository, createScript: string)
    ensures ExistsSql(repo) == CatalogLookup + ExistencePredicate(repo) + ";"
    ensures GetCreateIfNotExistsScript(repo, createScript)
            == "IF NOT EXISTS (" + CatalogLookup + ExistencePredicate(repo) + ") THEN"
               + createScript + repo.newLine + GetEndIfScript()
  {
    ExistsSqlTestsRelationPredicate(repo);
    CreateGuardTestsRelationPredicate(repo, createScript);
  }

  // ---------------------------------------------------------------------
  // The row scripts, written out in one piece

  /** The statement the generator builds to record `row`, in one piece: the
      qualified table, both delimited columns, a line break and the two
      escaped values. */
  function InsertText(repo: Repository, row: HistoryRow): string {
    "INSERT INTO " + QualifiedTable(repo)
    + " (" + Delimit(repo, repo.coordinates.migrationIdColumnName)
    + ", " + Delimit(repo, repo.coordinates.productVersionColumnName) + ")"
    + repo.newLine
    + "VALUES ('" + Escape(repo, row.migrationId) + "', '" + Escape(repo, row.productVersion) + "');"
  }

  /** The statement the generator builds to remove the record of `id`, in
      one piece. */
  function DeleteText(repo: Repository, id: string): string {
    "DELETE FROM " + QualifiedTable(repo) + repo.newLine
    + "WHERE " + Delimit(repo, repo.coordinates.migrationIdColumnName)
    + " = '" + Escape(repo, id) + "';"
  }

  /** Every row, whatever its id (the empty id included), is recorded by
      exactly that statement. */
  lemma InsertScriptIsInsertText(repo: Repository, row: HistoryRow)
    ensures GetInsertScript(repo, Some(row)) == Success(InsertText(repo, row))
  {
    FlattenInsert("INSERT INTO ", QualifiedTable(repo), " (",
                  Delimit(repo, repo.coordinates.migrationIdColumnName), ", ",
                  Delimit(repo, repo.coordinates.productVersionColumnName), ")",
                  repo.newLine, "VALUES ('", Escape(repo, row.migrationId), "', '",
                  Escape(repo, row.productVersion), "');");
  }

  /** Every accepted id is removed by exactly that statement. */
  lemma DeleteScriptIsDeleteText(repo: Repository, id: string)
    requires id != ""
    ensures GetDeleteScript(repo, Some(id)) == Success(DeleteText(repo, id))
  {
    FlattenDelete("DELETE FROM ", QualifiedTable(repo), repo.newLine,
                  "WHERE ", Delimit(repo, repo.coordinates.migrationIdColumnName),
                  " = '", Escape(repo, id), "';");
  }

  /** The insert script's three segments joined into one text. */
  lemma FlattenInsert(insertInto: string, table: string, open: string,
                      idColumn: string, comma: string, versionColumn: string, close: string,
                      newLine: string, values: string, id: string, separator: string, version: string, end: string)
    ensures (insertInto + table + open) + (idColumn + comma + versionColumn + close)
            + (newLine + values + id + separator + version + end)
            == insertInto + table + open + idColumn + comma + versionColumn + close
               + newLine + values + id + separator + version + end
  {
  }

  /** The delete script's three segments joined into one text. */
  lemma FlattenDelete(deleteFrom: string, table: string, newLine: string, where: string,
                      idColumn: string, equals: string, id: string, end: string)
    ensures (deleteFrom + table + newLine) + (where + idColumn) + (equals + id + end)
            == deleteFrom + table + newLine + where + idColumn + equals + id + end
  {
  }

  // ---------------------------------------------------------------------
  // The block openers

  /** What the block openers test, after their leading `IF ` or `IF NOT `. */
  function OpenerBody(repo: Repository, id: string): string {
    "EXISTS(SELECT * FROM " + QualifiedTable(repo) + " WHERE "
    + Delimit(repo, repo.coordinates.migrationIdColumnName)
    + (" = '" + Escape(repo, id) + "')" + repo.newLine + "BEGIN")
  }

  lemma BeginIfExistsIsIfBody(repo: Repository, id: string)
    requires id != ""
    ensures GetBeginIfExistsScript(repo, Some(id)) == Success("IF " + OpenerBody(repo, id))
  {
    var q := QualifiedTable(repo);
    var column := Delimit(repo, repo.coordinates.migrationIdColumnName);
    var test := " = '" + Escape(repo, id) + "')" + repo.newLine + "BEGIN";
    calc {
      GetBeginIfExistsScript(repo, Some(id)).value;
      "IF EXISTS(SELECT * FROM " + q + " WHERE " + column + test;
      { OpenerKeywords(); }
      "IF " + "EXISTS(SELECT * FROM " + q + " WHERE " + column + test;
      { OpenerRegroup("IF ", "EXISTS(SELECT * FROM ", q, " WHERE ", column, test); }
      "IF " + OpenerBody(repo, id);
    }
  }

  lemma BeginIfNotExistsIsIfNotBody(repo: Repository, id: string)
    requires id != ""
    ensures GetBeginIfNotExistsScript(repo, Some(id)) == Success("IF " + "NOT " + OpenerBody(repo, id))
  {
    var q := QualifiedTable(repo);
    var column := Delimit(repo, repo.coordinates.migrationIdColumnName);
    var test := " = '" + Escape(repo, id) + "')" + repo.newLine + "BEGIN";
    calc {
      GetBeginIfNotExistsScript(repo, Some(id)).value;
      "IF NOT EXISTS(SELECT * FROM " + q + " WHERE " + column + test;
      { OpenerKeywords(); }
      "IF NOT " + "EXISTS(SELECT * FROM " + q + " WHERE " + column + test;
      { OpenerRegroup("IF NOT ", "EXISTS(SELECT * FROM ", q, " WHERE ", column, test); }
      "IF NOT " + OpenerBody(repo, id);
      { assert "IF NOT " == "IF " + "NOT "; }
      "IF " + "NOT " + OpenerBody(repo, id);
    }
  }

  /** The two openers' fixed texts are their keywords in front of the same
      `EXISTS(SELECT * FROM `. */
  lemma OpenerKeywords()
    ensures "IF EXISTS(SELECT * FROM " == "IF " + "EXISTS(SELECT * FROM "
    ensures "IF NOT EXISTS(SELECT * FROM " == "IF NOT " + "EXISTS(SELECT * FROM "
  {
  }

  /** Separates an opener's leading keyword from the body that follows it. */
  lemma OpenerRegroup(keyword: string, existsTest: string, table: string, where: string, idColumn: string, test: string)
    ensures keyword + existsTest + table + where + idColumn + test == keyword + (existsTest + table + where + idColumn + test)
  {
  }

  /** Both openers refuse the same ids with the same error, and for every
      accepted id the NOT-variant is the plain one with `NOT ` inserted
      after its leading `IF `. */
  lemma BeginScriptsDifferOnlyByNot(repo: Repository, migrationId: Option<string>)
    ensures GetBeginIfNotExistsScript(repo, migrationId).Failure?
            <==> GetBeginIfExistsScript(repo, migrationId).Failure?
    ensures GetBeginIfNotExistsScript(repo, migrationId).Failure? ==>
            GetBeginIfNotExistsScript(repo, migrationId) == GetBeginIfExistsScript(repo, migrationId)
    ensures GetBeginIfExistsScript(repo, migrationId).Success? ==>
            var plain := GetBeginIfExistsScript(repo, migrationId).value;
            && "IF " <= plain
            && GetBeginIfNotExistsScript(repo, migrationId).value == "IF " + "NOT " + plain[3..]
  {
    if migrationId.Some? && migrationId.value != "" {
      var body := OpenerBody(repo, migrationId.value);
      BeginIfExistsIsIfBody(repo, migrationId.value);
      BeginIfNotExistsIsIfNotBody(repo, migrationId.value);
      PrefixOfAppend("IF ", body);
      assert ("IF " + body)[3..] == body;
    }
  }

  // ---------------------------------------------------------------------
  // Raw values reach the text only through the escaper

  /** Two configured generators whose escaper gives the same text for the
      table name and schema as literals, with a schema configured in both or
      in neither. The raw names and the escapers themselves may differ. */
  predicate SameEscapedTable(r1: Repository, r2: Repository) {
    var c1 := r1.coordinates;
    var c2 := r2.coordinates;
    && Escape(r1, c1.tableName) == Escape(r2, c2.tableName)
    && c1.tableSchema.Some? == c2.tableSchema.Some?
    && (c1.tableSchema.Some? ==> Escape(r1, c1.tableSchema.value) == Escape(r2, c2.tableSchema.value))
  }

  /** Two configured generators that lay a row statement out alike: the same
      qualified table, the same delimited id column and the same newline. */
  predicate SameRowLayout(r1: Repository, r2: Repository) {
    && QualifiedTable(r1) == QualifiedTable(r2)
    && Delimit(r1, r1.coordinates.migrationIdColumnName) == Delimit(r2, r2.coordinates.migrationIdColumnName)
    && r1.newLine == r2.newLine
  }

  /** The existence query depends on the coordinates only through the
      escaped table name and schema; the create guard depends on those and
      on the newline that precedes its closer. */
  lemma TableQueriesSeeOnlyEscapedText(r1: Repository, r2: Repository, createScript: string)
    requires SameEscapedTable(r1, r2)
    ensures ExistsSql(r1) == ExistsSql(r2)
    ensures r1.newLine == r2.newLine ==>
            GetCreateIfNotExistsScript(r1, createScript) == GetCreateIfNotExistsScript(r2, createScript)
  {
    assert SchemaClause(r1) == SchemaClause(r2);
  }

  /** The insert script depends on the row only through the escaped id and
      version, and on the configuration only through the row layout and the
      delimited version column. */
  lemma InsertScriptSeesOnlyEscapedText(r1: Repository, r2: Repository, row1: HistoryRow, row2: HistoryRow)
    requires SameRowLayout(r1, r2)
    requires Delimit(r1, r1.coordinates.productVersionColumnName) == Delimit(r2, r2.coordinates.productVersionColumnName)
    requires Escape(r1, row1.migrationId) == Escape(r2, row2.migrationId)
    requires Escape(r1, row1.productVersion) == Escape(r2, row2.productVersion)
    ensures GetInsertScript(r1, Some(row1)) == GetInsertScript(r2, Some(row2))
  {
  }

  /** The delete script depends on an accepted id only through its escaped
      form. */
  lemma DeleteScriptSeesOnlyEscapedText(r1: Repository, r2: Repository, id1: string, id2: string)
    requires SameRowLayout(r1, r2)
    requires id1 != "" && id2 != ""
    requires Escape(r1, id1) == Escape(r2, id2)
    ensures GetDeleteScript(r1, Some(id1)) == GetDeleteScript(r2, Some(id2))
  {
  }

  /** Both block openers depend on an accepted id only through its escaped
      form. */
  lemma BeginScriptsSeeOnlyEscapedText(r1: Repository, r2: Repository, id1: string, id2: string)
    requires SameRowLayout(r1, r2)
    requires id1 != "" && id2 != ""
    requires Escape(r1, id1) == Escape(r2, id2)
    ensures GetBeginIfNotExistsScript(r1, Some(id1)) == GetBeginIfNotExistsScript(r2, Some(id2))
    ensures GetBeginIfExistsScript(r1, Some(id1)) == GetBeginIfExistsScript(r2, Some(id2))
  {
  }

  // ---------------------------------------------------------------------
  // Every literal is one escaped value

  /** The escaper keeps its promise for `s`: the escaped text may sit
      between two quotes without closing the literal early. */
  predicate EscapesSafely(repo: Repository, s: string) {
    QuoteSafe(Escape(repo, s))
  }

  /** The delimited identifiers and the newline contain no apostrophe, so
      they cannot open a string literal. */
  predicate ApostropheFreeLayout(repo: Repository) {
    && NoQuote(QualifiedTable(repo))
    && NoQuote(Delimit(repo, repo.coordinates.migrationIdColumnName))
    && NoQuote(Delimit(repo, repo.coordinates.productVersionColumnName))
    && NoQuote(repo.newLine)
  }

  /** The escaper keeps its promise for the configured table name and schema. */
  predicate TableEscapesSafely(repo: Repository) {
    var c := repo.coordinates;
    && EscapesSafely(repo, c.tableName)
    && (c.tableSchema.Some? ==> EscapesSafely(repo, c.tableSchema.value))
  }

  /** The literals of the relation predicate: the escaped schema, when one is
      configured, then the escaped table name. */
  function TableLiterals(repo: Repository): seq<string> {
    var c := repo.coordinates;
    (if c.tableSchema.Some? then [Escape(repo, c.tableSchema.value)] else [])
    + [Escape(repo, c.tableName)]
  }

  lemma CatalogLookupHasNoQuote()
    ensures NoQuote(CatalogLookup)
  {
    assert NoQuote(FromClass);
    assert NoQuote(JoinNamespace);
    assert NoQuote(OnNamespace);
    assert NoQuote("WHERE ");
    NoQuoteAppend(FromClass, JoinNamespace);
    NoQuoteAppend(FromClass + JoinNamespace, OnNamespace);
    NoQuoteAppend(FromClass + JoinNamespace + OnNamespace, "WHERE ");
  }

  /** Lays the two-literal relation predicate out as apostrophe-free text,
      a quoted schema, apostrophe-free text and a quoted table name. */
  lemma PredicateRegroup(lead: string, schemaTest: string, quote: string, schema: string, and: string,
                         relationTest: string, name: string, post: string, tail: string)
    ensures lead + ((schemaTest + quote) + schema + (quote + and) + (relationTest + quote) + name + quote) + post + tail
            == (lead + schemaTest) + quote + schema + quote + (and + relationTest) + quote + name + quote + post + tail
  {
  }

  /** Between apostrophe-free texts, the relation predicate holds exactly the
      table's literals. */
  lemma RelationPredicateLiterals(repo: Repository, lead: string, post: string, tail: string)
    requires TableEscapesSafely(repo)
    requires NoQuote(lead) && NoQuote(post) && |post| > 0
    ensures Literals(lead + RelationPredicate(repo) + post + tail) == Concat(TableLiterals(repo), Literals(tail))
  {
    var c := repo.coordinates;
    var et := Escape(repo, c.tableName);
    assert RelationTest == "c.relname=" + "'";
    if c.tableSchema.Some? {
      var es := Escape(repo, c.tableSchema.value);
      assert SchemaTest == "n.nspname=" + "'";
      assert "' AND " == "'" + " AND ";
      calc {
        lead + RelationPredicate(repo) + post + tail;
        lead + (("n.nspname=" + "'") + es + ("'" + " AND ") + ("c.relname=" + "'") + et + "'") + post + tail;
        { PredicateRegroup(lead, "n.nspname=", "'", es, " AND ", "c.relname=", et, post, tail); }
        (lead + "n.nspname=") + "'" + es + "'" + (" AND " + "c.relname=") + "'" + et + "'" + post + tail;
      }
      assert NoQuote("n.nspname=") && NoQuote(" AND " + "c.relname=");
      NoQuoteAppend(lead, "n.nspname=");
      LiteralsAroundTwo(lead + "n.nspname=", es, " AND " + "c.relname=", et, post, tail);
      assert TableLiterals(repo) == [es, et];
    } else {
      calc {
        lead + RelationPredicate(repo) + post + tail;
        lead + ("" + ("c.relname=" + "'") + et + "'") + post + tail;
        (lead + "c.relname=") + "'" + et + "'" + post + tail;
      }
      assert NoQuote("c.relname=");
      NoQuoteAppend(lead, "c.relname=");
      LiteralsAroundOne(lead + "c.relname=", et, post, tail);
      assert TableLiterals(repo) == [et];
    }
  }

  /** When the escaper keeps its promise, the existence query's literals
      are exactly the escaped schema (when configured) and table name. */
  lemma ExistsSqlLiterals(repo: Repository)
    requires TableEscapesSafely(repo)
    ensures Literals(ExistsSql(repo)) == Some(TableLiterals(repo))
  {
    calc {
      Literals(ExistsSql(repo));
      { ExistsSqlTestsRelationPredicate(repo);
        assert ExistsSql(repo) == CatalogLookup + RelationPredicate(repo) + ";" + ""; }
      Literals(CatalogLookup + RelationPredicate(repo) + ";" + "");
      { CatalogLookupHasNoQuote();
        assert NoQuote(";");
        RelationPredicateLiterals(repo, CatalogLookup, ";", ""); }
      Concat(TableLiterals(repo), Literals(""));
      { assert TableLiterals(repo) + [] == TableLiterals(repo); }
      Some(TableLiterals(repo));
    }
  }

  /** Groups the create guard into its apostrophe-free opening, the
      predicate, `) THEN` and everything after it. */
  lemma GuardTailRegroup(opening: string, lookup: string, relationPredicate: string, thenKeyword: string,
                         createScript: string, newLine: string, closer: string)
    ensures opening + lookup + relationPredicate + thenKeyword + createScript + newLine + closer
            == (opening + lookup) + relationPredicate + thenKeyword + (createScript + newLine + closer)
  {
  }

  /** The create guard's own literals are the table's, and they come before
      whatever literals the create script and closer hold. */
  lemma CreateGuardLiterals(repo: Repository, createScript: string)
    requires TableEscapesSafely(repo)
    ensures Literals(GetCreateIfNotExistsScript(repo, createScript))
            == Concat(TableLiterals(repo), Literals(createScript + repo.newLine + GetEndIfScript()))
  {
    var lead := "IF NOT EXISTS (" + CatalogLookup;
    var tail := createScript + repo.newLine + GetEndIfScript();
    calc {
      Literals(GetCreateIfNotExistsScript(repo, createScript));
      { CreateGuardTestsRelationPredicate(repo, createScript);
        GuardTailRegroup("IF NOT EXISTS (", CatalogLookup, RelationPredicate(repo), ") THEN",
                         createScript, repo.newLine, GetEndIfScript()); }
      Literals(lead + RelationPredicate(repo) + ") THEN" + tail);
      { GuardLeadHasNoQuote();
        assert NoQuote(") THEN");
        RelationPredicateLiterals(repo, lead, ") THEN", tail); }
      Concat(TableLiterals(repo), Literals(tail));
    }
  }

  /** The newline and the block closer add no literal, so the create
      guard's literals are the table's escaped names followed by exactly the
      create script's. */
  lemma CreateGuardLiteralsAreTableThenScript(repo: Repository, createScript: string)
    requires TableEscapesSafely(repo) && NoQuote(repo.newLine)
    ensures Literals(GetCreateIfNotExistsScript(repo, createScript))
            == Concat(TableLiterals(repo), Literals(createScript))
  {
    CreateGuardLiterals(repo, createScript);
    NoQuoteAppend(repo.newLine, GetEndIfScript());
    assert createScript + repo.newLine + GetEndIfScript() == createScript + (repo.newLine + GetEndIfScript());
    LiteralsPlainTail(createScript, repo.newLine + GetEndIfScript());
  }

  lemma GuardLeadHasNoQuote()
    ensures NoQuote("IF NOT EXISTS (" + CatalogLookup)
  {
    CatalogLookupHasNoQuote();
    assert NoQuote("IF NOT EXISTS (");
    NoQuoteAppend("IF NOT EXISTS (", CatalogLookup);
  }

  /** The fixed text of the delete script before its literal carries no apostrophe. */
  lemma DeleteLeadHasNoQuote(repo: Repository)
    requires ApostropheFreeLayout(repo)
    ensures NoQuote("DELETE FROM " + QualifiedTable(repo) + repo.newLine
                    + ("WHERE " + Delimit(repo, repo.coordinates.migrationIdColumnName)) + " = ")
  {
    assert NoQuote("DELETE FROM ") && NoQuote("WHERE ") && NoQuote(" = ");
    NoQuoteAppend("DELETE FROM ", QualifiedTable(repo));
    NoQuoteAppend("DELETE FROM " + QualifiedTable(repo), repo.newLine);
    NoQuoteAppend("WHERE ", Delimit(repo, repo.coordinates.migrationIdColumnName));
    NoQuoteAppend("DELETE FROM " + QualifiedTable(repo) + repo.newLine,
                  "WHERE " + Delimit(repo, repo.coordinates.migrationIdColumnName));
    NoQuoteAppend("DELETE FROM " + QualifiedTable(repo) + repo.newLine
                  + ("WHERE " + Delimit(repo, repo.coordinates.migrationIdColumnName)), " = ");
  }

  /** When the escaper keeps its promise, the delete script holds exactly
      one literal: the escaped migration id. */
  lemma DeleteScriptLiterals(repo: Repository, id: string)
    requires id != ""
    requires ApostropheFreeLayout(repo) && EscapesSafely(repo, id)
    ensures Literals(GetDeleteScript(repo, Some(id)).value) == Some([Escape(repo, id)])
  {
    var from := "DELETE FROM " + QualifiedTable(repo) + repo.newLine;
    var column := "WHERE " + Delimit(repo, repo.coordinates.migrationIdColumnName);
    var e := Escape(repo, id);
    calc {
      Literals(GetDeleteScript(repo, Some(id)).value);
      Literals(from + column + (" = '" + e + "';"));
      { assert " = '" == " = " + "'";
        assert "';" == "'" + ";"; }
      Literals(from + column + (" = " + "'" + e + ("'" + ";")));
      { DeleteLayout(from, column, " = ", e, ";"); }
      Literals((from + column + " = ") + "'" + e + "'" + ";" + "");
      { DeleteLeadHasNoQuote(repo);
        assert NoQuote(";");
        LiteralsAroundOne(from + column + " = ", e, ";", ""); }
      Concat([e], Literals(""));
      { assert Literals("") == Some([]);
        assert [e] + [] == [e]; }
      Some([e]);
    }
  }

  /** Lays the delete script out as apostrophe-free text, the quoted id and
      the terminator. */
  lemma DeleteLayout(from: string, column: string, equals: string, id: string, end: string)
    ensures from + column + (equals + "'" + id + ("'" + end)) == (from + column + equals) + "'" + id + "'" + end + ""
  {
  }

  /** The delete script reads back as exactly the escaped id if and only if
      the escaper keeps its promise for that id: any escaped id that is not
      quote-safe makes the script's literals differ from it. */
  lemma DeleteScriptLiteralsExactlyWhenSafe(repo: Repository, id: string)
    requires id != ""
    requires ApostropheFreeLayout(repo)
    ensures Literals(GetDeleteScript(repo, Some(id)).value) == Some([Escape(repo, id)])
            <==> EscapesSafely(repo, id)
  {
    var found := Literals(GetDeleteScript(repo, Some(id)).value);
    if found == Some([Escape(repo, id)]) {
      assert found.value[0] == Escape(repo, id);
    }
    if EscapesSafely(repo, id) {
      DeleteScriptLiterals(repo, id);
    }
  }

  /** One way an escaper that breaks its promise breaks the delete script:
      when the escaped id is apostrophe-free text followed by one lone quote,
      the id's literal closes early and the statement ends inside a literal
      that is never closed. */
  lemma UnescapedQuoteLeavesDeleteLiteralOpen(repo: Repository, id: string, w: string)
    requires id != ""
    requires ApostropheFreeLayout(repo)
    requires NoQuote(w) && Escape(repo, id) == w + "'"
    ensures Literals(GetDeleteScript(repo, Some(id)).value).None?
  {
    var from := "DELETE FROM " + QualifiedTable(repo) + repo.newLine;
    var column := "WHERE " + Delimit(repo, repo.coordinates.migrationIdColumnName);
    var pre := from + column + " = ";
    var open := "'" + (w + "'';");
    calc {
      GetDeleteScript(repo, Some(id)).value;
      from + column + (" = '" + (w + "'") + "';");
      { assert " = '" == " = " + "'";
        assert "'" + "';" == "'';"; }
      pre + open;
    }
    DeleteLeadHasNoQuote(repo);
    LiteralsSkipPlain(pre, open);
    assert ReadLiteral("'';").None? by {
      var d := "'';";
      assert d[0] == Quote && d[1] == Quote && d[2..] == ";";
      assert ReadLiteral(";"[1..]).None?;
    }
    ReadLiteralOpenAfterPlain(w, "'';");
    assert open[0] == Quote && open[1..] == w + "'';";
  }

  /** The fixed text of the insert script before its first literal carries no apostrophe. */
  lemma InsertLeadHasNoQuote(repo: Repository)
    requires ApostropheFreeLayout(repo)
    ensures NoQuote("INSERT INTO " + QualifiedTable(repo) + " ("
                    + (Delimit(repo, repo.coordinates.migrationIdColumnName)
                       + ", " + Delimit(repo, repo.coordinates.productVersionColumnName) + ")")
                    + repo.newLine + "VALUES (")
  {
    var d1 := Delimit(repo, repo.coordinates.migrationIdColumnName);
    var d2 := Delimit(repo, repo.coordinates.productVersionColumnName);
    assert NoQuote("INSERT INTO ") && NoQuote(" (") && NoQuote(", ") && NoQuote(")") && NoQuote("VALUES (");
    NoQuoteAppend("INSERT INTO ", QualifiedTable(repo));
    NoQuoteAppend("INSERT INTO " + QualifiedTable(repo), " (");
    NoQuoteAppend(d1, ", ");
    NoQuoteAppend(d1 + ", ", d2);
    NoQuoteAppend(d1 + ", " + d2, ")");
    NoQuoteAppend("INSERT INTO " + QualifiedTable(repo) + " (", d1 + ", " + d2 + ")");
    NoQuoteAppend("INSERT INTO " + QualifiedTable(repo) + " (" + (d1 + ", " + d2 + ")"), repo.newLine);
    NoQuoteAppend("INSERT INTO " + QualifiedTable(repo) + " (" + (d1 + ", " + d2 + ")") + repo.newLine, "VALUES (");
  }

  /** Lays the insert script out as apostrophe-free text, the quoted id, a
      comma and the quoted version. */
  lemma InsertRegroup(into: string, columns: string, newLine: string, values: string, quote: string,
                      id: string, comma: string, version: string, close: string)
    ensures into + columns + (newLine + (values + quote) + id + (quote + comma + quote) + version + (quote + close))
            == (into + columns + newLine + values) + quote + id + quote + comma + quote + version + quote + close + ""
  {
  }

  /** When the escaper keeps its promise, the insert script holds exactly
      two literals: the escaped migration id, then the escaped version. */
  lemma InsertScriptLiterals(repo: Repository, row: HistoryRow)
    requires ApostropheFreeLayout(repo)
    requires EscapesSafely(repo, row.migrationId) && EscapesSafely(repo, row.productVersion)
    ensures Literals(GetInsertScript(repo, Some(row)).value)
            == Some([Escape(repo, row.migrationId), Escape(repo, row.productVersion)])
  {
    var into := "INSERT INTO " + QualifiedTable(repo) + " (";
    var columns := Delimit(repo, repo.coordinates.migrationIdColumnName)
                   + ", " + Delimit(repo, repo.coordinates.productVersionColumnName) + ")";
    var e1 := Escape(repo, row.migrationId);
    var e2 := Escape(repo, row.productVersion);
    var pre := into + columns + repo.newLine + "VALUES (";
    calc {
      Literals(GetInsertScript(repo, Some(row)).value);
      Literals(into + columns + (repo.newLine + "VALUES ('" + e1 + "', '" + e2 + "');"));
      { assert "VALUES ('" == "VALUES (" + "'";
        assert "', '" == "'" + ", " + "'";
        assert "');" == "'" + ");"; }
      Literals(into + columns + (repo.newLine + ("VALUES (" + "'") + e1 + ("'" + ", " + "'") + e2 + ("'" + ");")));
      { InsertRegroup(into, columns, repo.newLine, "VALUES (", "'", e1, ", ", e2, ");"); }
      Literals(pre + "'" + e1 + "'" + ", " + "'" + e2 + "'" + ");" + "");
      { InsertLeadHasNoQuote(repo);
        assert NoQuote(", ") && NoQuote(");");
        LiteralsAroundTwo(pre, e1, ", ", e2, ");", ""); }
      Concat([e1, e2], Literals(""));
      { assert Literals("") == Some([]);
        assert [e1, e2] + [] == [e1, e2]; }
      Some([e1, e2]);
    }
  }

  /** The fixed text of a block opener before its literal carries no apostrophe. */
  lemma OpenerLeadHasNoQuote(repo: Repository, lead: string)
    requires ApostropheFreeLayout(repo) && NoQuote(lead)
    ensures NoQuote(lead + "EXISTS(SELECT * FROM " + QualifiedTable(repo) + " WHERE "
                    + Delimit(repo, repo.coordinates.migrationIdColumnName) + " = ")
  {
    assert NoQuote("EXISTS(SELECT * FROM ") && NoQuote(" WHERE ") && NoQuote(" = ");
    NoQuoteAppend(lead, "EXISTS(SELECT * FROM ");
    NoQuoteAppend(lead + "EXISTS(SELECT * FROM ", QualifiedTable(repo));
    NoQuoteAppend(lead + "EXISTS(SELECT * FROM " + QualifiedTable(repo), " WHERE ");
    NoQuoteAppend(lead + "EXISTS(SELECT * FROM " + QualifiedTable(repo) + " WHERE ",
                  Delimit(repo, repo.coordinates.migrationIdColumnName));
    NoQuoteAppend(lead + "EXISTS(SELECT * FROM " + QualifiedTable(repo) + " WHERE "
                  + Delimit(repo, repo.coordinates.migrationIdColumnName), " = ");
  }

  /** Lays a block opener out as apostrophe-free text, the quoted id and
      the apostrophe-free rest. */
  lemma OpenerLayout(lead: string, existsTest: string, table: string, where: string, idColumn: string, equals: string,
                     quote: string, id: string, close: string, newLine: string, begin: string)
    ensures lead + (existsTest + table + where + idColumn + (equals + quote + id + (quote + close) + newLine + begin))
            == (lead + existsTest + table + where + idColumn + equals) + quote + id + quote + (close + newLine + begin) + ""
  {
  }

  /** Behind an apostrophe-free `IF ` or `IF NOT `, the opener's only literal
      is the escaped migration id. */
  lemma OpenerBodyLiterals(repo: Repository, lead: string, id: string)
    requires ApostropheFreeLayout(repo) && EscapesSafely(repo, id) && NoQuote(lead)
    ensures Literals(lead + OpenerBody(repo, id)) == Some([Escape(repo, id)])
  {
    var q := QualifiedTable(repo);
    var d := Delimit(repo, repo.coordinates.migrationIdColumnName);
    var e := Escape(repo, id);
    var pre := lead + "EXISTS(SELECT * FROM " + q + " WHERE " + d + " = ";
    var post := ")" + repo.newLine + "BEGIN";
    calc {
      Literals(lead + OpenerBody(repo, id));
      Literals(lead + ("EXISTS(SELECT * FROM " + q + " WHERE " + d + (" = '" + e + "')" + repo.newLine + "BEGIN")));
      { assert " = '" == " = " + "'";
        assert "')" == "'" + ")"; }
      Literals(lead + ("EXISTS(SELECT * FROM " + q + " WHERE " + d + (" = " + "'" + e + ("'" + ")") + repo.newLine + "BEGIN")));
      { OpenerLayout(lead, "EXISTS(SELECT * FROM ", q, " WHERE ", d, " = ", "'", e, ")", repo.newLine, "BEGIN"); }
      Literals(pre + "'" + e + "'" + post + "");
      { OpenerLeadHasNoQuote(repo, lead);
        assert NoQuote(")") && NoQuote("BEGIN");
        NoQuoteAppend(")", repo.newLine);
        NoQuoteAppend(")" + repo.newLine, "BEGIN");
        LiteralsAroundOne(pre, e, post, ""); }
      Concat([e], Literals(""));
      { assert Literals("") == Some([]);
        assert [e] + [] == [e]; }
      Some([e]);
    }
  }

  /** When the escaper keeps its promise, each block opener holds exactly one
      literal: the escaped migration id. */
  lemma BeginScriptsLiterals(repo: Repository, id: string)
    requires id != ""
    requires ApostropheFreeLayout(repo) && EscapesSafely(repo, id)
    ensures Literals(GetBeginIfExistsScript(repo, Some(id)).value) == Some([Escape(repo, id)])
    ensures Literals(GetBeginIfNotExistsScript(repo, Some(id)).value) == Some([Escape(repo, id)])
  {
    BeginIfExistsIsIfBody(repo, id);
    BeginIfNotExistsIsIfNotBody(repo, id);
    assert NoQuote("IF ") && NoQuote("IF " + "NOT ");
    OpenerBodyLiterals(repo, "IF ", id);
    OpenerBodyLiterals(repo, "IF " + "NOT ", id);
  }
}

=== FILE: history_repository.dfy ===
/** The PostgreSQL generator of SQL text for the migrations history table.
    Every operation is a pure function of the configured table coordinates,
    the injected SQL escaper and one per-call argument. */
module NpgsqlHistoryRepository {
  import opened Wrappers
  import opened Strings
  import opened SqlText

  /** One applied migration, as the migration engine hands it over. */
  datatype HistoryRow = HistoryRow(migrationId: string, productVersion: string)

  /** Where the history table lives; the schema is absent when the table sits
      in the search-path namespace. */
  datatype Coordinates = Coordinates(
    tableName: string,
    tableSchema: Option<string>,
    migrationIdColumnName: string,
    productVersionColumnName: string)

  /** The escaping and quoting services of the update SQL generator. Their
      rules are not part of this model, so they are left uninterpreted. */
  datatype UpdateSqlGenerator = UpdateSqlGenerator(
    escapeLiteral: string -> string,
    delimitIdentifier: string -> string,
    delimitQualifiedIdentifier: (string, Option<string>) -> string)

  /** A configured generator; `newLine` is the platform line terminator that
      line-appending builders emit. */
  datatype Repository = Repository(
    coordinates: Coordinates,
    sql: UpdateSqlGenerator,
    newLine: string)

  /** The argument exceptions thrown by the guard clauses. */
  datatype ArgumentError = ArgumentNull(parameterName: string) | ArgumentEmpty(parameterName: string)

  /** A scalar read back from the database: the DB-null marker, or any other
      object (a C# null reference included). */
  datatype DbValue<+T> = DbNull | Value(value: T)

  /** The catalog lookup shared by the existence query and the create guard,
      clause by clause. */
  const CatalogLookup := FromClass + JoinNamespace + OnNamespace + "WHERE "

  const FromClass := "SELECT 1 FROM pg_catalog.pg_class c "
  const JoinNamespace := "JOIN pg_catalog.pg_namespace n "
  const OnNamespace := "ON n.oid=c.relnamespace "

  /** The create guard's opening: the generator spells out the same lookup
      text again, behind `IF NOT EXISTS (`. */
  const GuardedCatalogLookup := "IF NOT EXISTS (" + CatalogLookup

  const SchemaTest := "n.nspname='"
  const RelationTest := "c.relname='"

  function Escape(repo: Repository, s: string): string {
    repo.sql.escapeLiteral(s)
  }

  function Delimit(repo: Repository, name: string): string {
    repo.sql.delimitIdentifier(name)
  }

  /** The history table's name, delimited and qualified by its schema. */
  function QualifiedTable(repo: Repository): string {
    repo.sql.delimitQualifiedIdentifier(repo.coordinates.tableName, repo.coordinates.tableSchema)
  }

  function CheckNotNull<T>(value: Option<T>, parameterName: string): Result<T, ArgumentError> {
    match value
    case None => Failure(ArgumentNull(parameterName))
    case Some(v) => Success(v)
  }

  function CheckNotEmpty(value: Option<string>, parameterName: string): Result<string, ArgumentError> {
    match value
    case None => Failure(ArgumentNull(parameterName))
    case Some(s) => if |s| == 0 then Failure(ArgumentEmpty(parameterName)) else Success(s)
  }

  /** The query whose single row says that the history table exists. The
      namespace test is there exactly when a schema is configured, and the
      relation test always closes the query. */
  function ExistsSql(repo: Repository): (r: string)
    ensures CatalogLookup <= r
    ensures CatalogLookup + SchemaTest <= r <==> repo.coordinates.tableSchema.Some?
    ensures EndsWith(RelationTest + Escape(repo, repo.coordinates.tableName) + "';", r)
  {
    var c := repo.coordinates;
    var schemaClause :=
      if c.tableSchema.Some? then SchemaTest + Escape(repo, c.tableSchema.value) + "' AND " else "";
    var relationClause := RelationTest + Escape(repo, c.tableName) + "';";
    HeadAndTail(CatalogLookup, schemaClause, relationClause);
    assert c.tableSchema.Some? ==> SchemaTest <= schemaClause by {
      if c.tableSchema.Some? {
        PrefixOfAppend(SchemaTest, Escape(repo, c.tableSchema.value) + "' AND ");
        assert schemaClause == SchemaTest + (Escape(repo, c.tableSchema.value) + "' AND ");
      }
    }
    OptionalClause(CatalogLookup, schemaClause, SchemaTest, relationClause, c.tableSchema.Some?);
    CatalogLookup + schemaClause + relationClause
  }

  /** Reads the existence query's result: the table exists unless the value
      is the DB-null marker. */
  function Exists<T>(value: DbValue<T>): (r: bool)
    ensures r <==> !value.DbNull?
  {
    value != DbNull
  }

  /** The script recording one applied migration. Only a missing row is
      refused; the migration id is not checked for emptiness. */
  function GetInsertScript(repo: Repository, row: Option<HistoryRow>): (r: Result<string, ArgumentError>)
    ensures r.Failure? <==> row.None?
    ensures r.Failure? ==> r.error == ArgumentNull("row")
    ensures r.Success? ==> "INSERT INTO " + QualifiedTable(repo) + " (" <= r.value
    ensures r.Success? ==>
      EndsWith(repo.newLine + "VALUES ('" + Escape(repo, row.value.migrationId) + "', '"
               + Escape(repo, row.value.productVersion) + "');", r.value)
  {
    var hr :- CheckNotNull(row, "row");
    var into := "INSERT INTO " + QualifiedTable(repo) + " (";
    var columns := Delimit(repo, repo.coordinates.migrationIdColumnName)
                   + ", " + Delimit(repo, repo.coordinates.productVersionColumnName) + ")";
    var values := repo.newLine
                  + "VALUES ('" + Escape(repo, hr.migrationId)
                  + "', '" + Escape(repo, hr.productVersion) + "');";
    HeadAndTail(into, columns, values);
    Success(into + columns + values)
  }

  /** The script removing the record of one migration; the id must be given
      and non-empty. */
  function GetDeleteScript(repo: Repository, migrationId: Option<string>): (r: Result<string, ArgumentError>)
    ensures r.Failure? <==> migrationId.None? || migrationId.value == ""
    ensures migrationId.None? ==> r == Failure(ArgumentNull("migrationId"))
    ensures migrationId == Some("") ==> r == Failure(ArgumentEmpty("migrationId"))
    ensures r.Success? ==> "DELETE FROM " + QualifiedTable(repo) + repo.newLine <= r.value
    ensures r.Success? ==> EndsWith(" = '" + Escape(repo, migrationId.value) + "';", r.value)
  {
    var id :- CheckNotEmpty(migrationId, "migrationId");
    var from := "DELETE FROM " + QualifiedTable(repo) + repo.newLine;
    var column := "WHERE " + Delimit(repo, repo.coordinates.migrationIdColumnName);
    var test := " = '" + Escape(repo, id) + "';";
    HeadAndTail(from, column, test);
    Success(from + column + test)
  }

  /** The closer of a conditional block: an `END` keyword line that holds
      no string literal. */
  function GetEndIfScript(): (r: string)
    ensures "END" <= r
    ensures NoQuote(r)
  {
    "END IF"
  }

  /** Wraps the base create-table script in a guard on the table's absence.
      The script is appended verbatim, at indentation level zero, followed
      by one newline; the closer follows. */
  function GetCreateIfNotExistsScript(repo: Repository, createScript: string): (r: string)
    ensures "IF NOT EXISTS (" + CatalogLookup <= r
    ensures EndsWith("') THEN" + createScript + repo.newLine + GetEndIfScript(), r)
  {
    var c := repo.coordinates;
    var schemaClause :=
      if c.tableSchema.Some? then "n.nspname='" + Escape(repo, c.tableSchema.value) + "' AND " else "";
    var relationTest := "c.relname='" + Escape(repo, c.tableName);
    var body := "') THEN" + createScript + repo.newLine + GetEndIfScript();
    HeadAndTail(GuardedCatalogLookup, schemaClause + relationTest, body);
    GuardedCatalogLookup + (schemaClause + relationTest) + body
  }

  /** Opens a block that runs only when the migration is not yet recorded. */
  function GetBeginIfNotExistsScript(repo: Repository, migrationId: Option<string>): (r: Result<string, ArgumentError>)
    ensures r.Failure? <==> migrationId.None? || migrationId.value == ""
    ensures migrationId.None? ==> r == Failure(ArgumentNull("migrationId"))
    ensures migrationId == Some("") ==> r == Failure(ArgumentEmpty("migrationId"))
    ensures r.Success? ==> "IF NOT EXISTS(SELECT * FROM " + QualifiedTable(repo) + " WHERE " <= r.value
    ensures r.Success? ==> EndsWith(" = '" + Escape(repo, migrationId.value) + "')" + repo.newLine + "BEGIN", r.value)
  {
    var id :- CheckNotEmpty(migrationId, "migrationId");
    var from := "IF NOT EXISTS(SELECT * FROM " + QualifiedTable(repo) + " WHERE ";
    var column := Delimit(repo, repo.coordinates.migrationIdColumnName);
    var test := " = '" + Escape(repo, id) + "')" + repo.newLine + "BEGIN";
    HeadAndTail(from, column, test);
    Success(from + column + test)
  }

  /** Opens a block that runs only when the migration is already recorded. */
  function GetBeginIfExistsScript(repo: Repository, migrationId: Option<string>): (r: Result<string, ArgumentError>)
    ensures r.Failure? <==> migrationId.None? || migrationId.value == ""
    ensures migrationId.None? ==> r == Failure(ArgumentNull("migrationId"))
    ensures migrationId == Some("") ==> r == Failure(ArgumentEmpty("migrationId"))
    ensures r.Success? ==> "IF EXISTS(SELECT * FROM " + QualifiedTable(repo) + " WHERE " <= r.value
    ensures r.Success? ==> EndsWith(" = '" + Escape(repo, migrationId.value) + "')" + repo.newLine + "BEGIN", r.value)
  {
    var id :- CheckNotEmpty(migrationId, "migrationId");
    var from := "IF EXISTS(SELECT * FROM " + QualifiedTable(repo) + " WHERE ";
    var column := Delimit(repo, repo.coordinates.migrationIdColumnName);
    var test := " = '" + Escape(repo, id) + "')" + repo.newLine + "BEGIN";
    HeadAndTail(from, column, test);
    Success(from + column + test)
  }
}

=== FILE: sql_text.dfy ===
/** Just enough of SQL's lexical structure to talk about string literals: a
    literal opens with an apostrophe, an apostrophe inside it is written
    twice, and it closes at the first apostrophe that is not doubled. Double-
    quoted identifiers are not recognised, so the lemmas that use this lexer
    ask for the text around the literals to be apostrophe-free. */
module SqlText {
  import opened Wrappers

  const Quote: char := '\''

  /** No apostrophe occurs in `s`: a lexer never enters or leaves a literal inside it. */
  predicate NoQuote(s: string) {
    forall i :: 0 <= i < |s| ==> s[i] != Quote
  }

  /** Every apostrophe in `s` is one half of a doubled pair `''`: the shape of
      text that may stand between the quotes of a string literal. This is the
      promise a literal escaper makes about its output. */
  predicate QuoteSafe(s: string)
    decreases |s|
  {
    if |s| == 0 then true
    else if s[0] == Quote then 2 <= |s| && s[1] == Quote && QuoteSafe(s[2..])
    else QuoteSafe(s[1..])
  }

  /** A literal's body, as written, and the text after its closing quote. */
  datatype Split = Split(body: string, rest: string)

  /** Reads a string literal whose opening quote has already been consumed.
      None when the literal is never closed. */
  function ReadLiteral(s: string): (r: Option<Split>)
    ensures r.Some? ==> s == r.value.body + [Quote] + r.value.rest
    ensures r.Some? ==> QuoteSafe(r.value.body)
    decreases |s|
  {
    if |s| == 0 then None
    else if s[0] == Quote then
      if 2 <= |s| && s[1] == Quote then
        match ReadLiteral(s[2..])
        case None => None
        case Some(sp) =>
          assert ([Quote, Quote] + sp.body)[2..] == sp.body;
          Some(Split([Quote, Quote] + sp.body, sp.rest))
      else Some(Split([], s[1..]))
    else
      match ReadLiteral(s[1..])
      case None => None
      case Some(sp) =>
        assert ([s[0]] + sp.body)[1..] == sp.body;
        Some(Split([s[0]] + sp.body, sp.rest))
  }

  /** The bodies of all string literals in `s`, left to right; None when a
      literal is left open. */
  function Literals(s: string): (r: Option<seq<string>>)
    ensures r.Some? ==> forall i :: 0 <= i < |r.value| ==> QuoteSafe(r.value[i])
    ensures NoQuote(s) ==> r == Some([])
    decreases |s|
  {
    if |s| == 0 then Some([])
    else if s[0] != Quote then Literals(s[1..])
    else
      match ReadLiteral(s[1..])
      case None => None
      case Some(sp) =>
        match Literals(sp.rest)
        case None => None
        case Some(ls) => Some([sp.body] + ls)
  }

  /** `xs` followed by the literals `r` found, if any were. */
  function Concat(xs: seq<string>, r: Option<seq<string>>): Option<seq<string>> {
    match r
    case None => None
    case Some(ys) => Some(xs + ys)
  }

  /** Text free of apostrophes is skipped by the lexer. */
  lemma {:induction false} LiteralsSkipPlain(t: string, tail: string)
    requires NoQuote(t)
    ensures Literals(t + tail) == Literals(tail)
    decreases |t|
  {
    if |t| == 0 {
      assert t + tail == tail;
    } else {
      assert (t + tail)[0] == t[0];
      assert (t + tail)[1..] == t[1..] + tail;
      LiteralsSkipPlain(t[1..], tail);
    }
  }

  /** A quote-safe body followed by a quote reads back as exactly that body,
      provided the quote is not doubled by what follows it. */
  lemma {:induction false} ReadLiteralOfSafe(e: string, rest: string)
    requires QuoteSafe(e)
    requires |rest| == 0 || rest[0] != Quote
    ensures ReadLiteral(e + [Quote] + rest) == Some(Split(e, rest))
    decreases |e|
  {
    var s := e + [Quote] + rest;
    if |e| == 0 {
      assert s == [Quote] + rest;
      assert s[1..] == rest;
    } else if e[0] == Quote {
      assert s[0] == Quote && s[1] == Quote;
      assert s[2..] == e[2..] + [Quote] + rest;
      ReadLiteralOfSafe(e[2..], rest);
      assert [Quote, Quote] + e[2..] == e;
    } else {
      assert s[0] == e[0];
      assert s[1..] == e[1..] + [Quote] + rest;
      ReadLiteralOfSafe(e[1..], rest);
      assert [e[0]] + e[1..] == e;
    }
  }

  /** A quoted quote-safe body contributes exactly itself as a literal. */
  lemma {:induction false} LiteralsOfQuoted(b: string, r: string)
    requires QuoteSafe(b)
    requires |r| == 0 || r[0] != Quote
    ensures Literals([Quote] + b + [Quote] + r) == Concat([b], Literals(r))
  {
    var s := [Quote] + b + [Quote] + r;
    assert s[0] == Quote;
    assert s[1..] == b + [Quote] + r;
    ReadLiteralOfSafe(b, r);
  }

  /** Apostrophe-free texts stay apostrophe-free when joined. */
  lemma NoQuoteAppend(a: string, b: string)
    requires NoQuote(a) && NoQuote(b)
    ensures NoQuote(a + b)
  {
    forall i | 0 <= i < |a + b|
      ensures (a + b)[i] != Quote
    {
      if i < |a| { assert (a + b)[i] == a[i]; } else { assert (a + b)[i] == b[i - |a|]; }
    }
  }

  /** One literal between apostrophe-free texts: the lexer finds exactly its
      body, then carries on into the tail. */
  lemma LiteralsAroundOne(pre: string, e: string, post: string, tail: string)
    requires NoQuote(pre) && QuoteSafe(e) && NoQuote(post) && |post| > 0
    ensures Literals(pre + "'" + e + "'" + post + tail) == Concat([e], Literals(tail))
  {
    var rest := post + tail;
    calc {
      Literals(pre + "'" + e + "'" + post + tail);
      { assert pre + "'" + e + "'" + post + tail == pre + ([Quote] + e + [Quote] + rest); }
      Literals(pre + ([Quote] + e + [Quote] + rest));
      { LiteralsSkipPlain(pre, [Quote] + e + [Quote] + rest); }
      Literals([Quote] + e + [Quote] + rest);
      { assert rest[0] == post[0];
        LiteralsOfQuoted(e, rest); }
      Concat([e], Literals(rest));
      { LiteralsSkipPlain(post, tail); }
      Concat([e], Literals(tail));
    }
  }

  /** A literal opening the text: the lexer finds its body first. */
  lemma LiteralsOpeningWithOne(e: string, post: string, tail: string)
    requires QuoteSafe(e) && NoQuote(post) && |post| > 0
    ensures Literals("'" + e + "'" + post + tail) == Concat([e], Literals(tail))
  {
    assert "" + "'" + e + "'" + post + tail == "'" + e + "'" + post + tail;
    assert NoQuote("");
    LiteralsAroundOne("", e, post, tail);
  }

  /** Cuts a text with two literals just before the second one opens. */
  lemma CutBeforeSecondLiteral(head: string, e2: string, post: string, tail: string)
    ensures head + "'" + e2 + "'" + post + tail == head + ("'" + e2 + "'" + post + tail)
  {
  }

  /** Two literals separated and surrounded by apostrophe-free texts. */
  lemma LiteralsAroundTwo(pre: string, e1: string, mid: string, e2: string, post: string, tail: string)
    requires NoQuote(pre) && QuoteSafe(e1) && NoQuote(mid) && |mid| > 0
    requires QuoteSafe(e2) && NoQuote(post) && |post| > 0
    ensures Literals(pre + "'" + e1 + "'" + mid + "'" + e2 + "'" + post + tail) == Concat([e1, e2], Literals(tail))
  {
    var rest := "'" + e2 + "'" + post + tail;
    CutBeforeSecondLiteral(pre + "'" + e1 + "'" + mid, e2, post, tail);
    LiteralsAroundOne(pre, e1, mid, rest);
    LiteralsOpeningWithOne(e2, post, tail);
    ConcatTwice(e1, e2, Literals(tail));
  }

  lemma ConcatTwice(e1: string, e2: string, r: Option<seq<string>>)
    ensures Concat([e1], Concat([e2], r)) == Concat([e1, e2], r)
  {
    match r
    case None =>
    case Some(ys) => assert [e1] + ([e2] + ys) == [e1, e2] + ys;
  }

  /** A literal never closes inside apostrophe-free text. */
  lemma {:induction false} ReadLiteralOfPlain(t: string)
    requires NoQuote(t)
    ensures ReadLiteral(t).None?
    decreases |t|
  {
    if |t| > 0 {
      ReadLiteralOfPlain(t[1..]);
    }
  }

  /** Apostrophe-free text appended after a literal's opening changes neither
      the body read nor whether the literal closes; it only lengthens the rest. */
  lemma {:induction false} ReadLiteralPlainTail(s: string, t: string)
    requires NoQuote(t)
    ensures ReadLiteral(s + t).None? <==> ReadLiteral(s).None?
    ensures ReadLiteral(s).Some? ==>
            ReadLiteral(s + t) == Some(Split(ReadLiteral(s).value.body, ReadLiteral(s).value.rest + t))
    decreases |s|
  {
    if |s| == 0 {
      assert s + t == t;
      ReadLiteralOfPlain(t);
    } else if s[0] == Quote {
      assert (s + t)[0] == Quote;
      if 2 <= |s| && s[1] == Quote {
        assert (s + t)[1] == Quote;
        assert (s + t)[2..] == s[2..] + t;
        ReadLiteralPlainTail(s[2..], t);
      } else if |s| == 1 {
        assert (s + t)[1..] == t;
        assert s[1..] + t == t;
      } else {
        assert (s + t)[1] == s[1];
        assert (s + t)[1..] == s[1..] + t;
      }
    } else {
      assert (s + t)[0] == s[0];
      assert (s + t)[1..] == s[1..] + t;
      ReadLiteralPlainTail(s[1..], t);
    }
  }

  /** Apostrophe-free text at the end adds no literal and closes none. */
  lemma {:induction false} LiteralsPlainTail(s: string, t: string)
    requires NoQuote(t)
    ensures Literals(s + t) == Literals(s)
    decreases |s|
  {
    if |s| == 0 {
      assert s + t == t;
    } else {
      assert (s + t)[0] == s[0];
      assert (s + t)[1..] == s[1..] + t;
      if s[0] != Quote {
        LiteralsPlainTail(s[1..], t);
      } else {
        ReadLiteralPlainTail(s[1..], t);
        match ReadLiteral(s[1..])
        case None =>
        case Some(sp) =>
          assert |sp.rest| < |s|;
          LiteralsPlainTail(sp.rest, t);
      }
    }
  }

  /** A literal left open stays open when apostrophe-free text precedes it. */
  lemma {:induction false} ReadLiteralOpenAfterPlain(w: string, rest: string)
    requires NoQuote(w)
    requires ReadLiteral(rest).None?
    ensures ReadLiteral(w + rest).None?
    decreases |w|
  {
    if |w| == 0 {
      assert w + rest == rest;
    } else {
      assert (w + rest)[0] == w[0];
      assert (w + rest)[1..] == w[1..] + rest;
      ReadLiteralOpenAfterPlain(w[1..], rest);
    }
  }
}

=== FILE: strings.dfy ===
/** Facts about joining texts that the generators' contracts rest on:
    where a joined text starts and ends, whether an optional clause is
    there, and how its middle part is cut back out. */
module Strings {
  /** `suffix` closes `s`. */
  predicate EndsWith(suffix: string, s: string) {
    |suffix| <= |s| && s[|s| - |suffix|..] == suffix
  }

  /** A text is a prefix of itself extended. */
  lemma PrefixOfAppend(a: string, b: string)
    ensures a <= a + b
  {
    assert (a + b)[..|a|] == a;
  }

  /** A text is a suffix of itself prepended. */
  lemma SuffixOfPrepend(a: string, b: string)
    ensures EndsWith(b, a + b)
  {
    assert (a + b)[|a + b| - |b|..] == b;
  }

  /** A text built from a head, a middle and a tail starts with the head and
      ends with the tail. */
  lemma HeadAndTail(head: string, middle: string, tail: string)
    ensures head <= head + middle + tail
    ensures EndsWith(tail, head + middle + tail)
  {
    PrefixOfAppend(head, middle + tail);
    assert head + middle + tail == head + (middle + tail);
    SuffixOfPrepend(head + middle, tail);
  }

  /** An optional clause between a head and a tail: the text starts with
      `head + marker` exactly when the clause is present, given that the
      clause opens with `marker` and the tail does not. */
  lemma OptionalClause(head: string, clause: string, marker: string, tail: string, present: bool)
    requires present ==> marker <= clause
    requires !present ==> clause == ""
    requires |marker| > 0 && |tail| > 0 && tail[0] != marker[0]
    ensures head + marker <= head + clause + tail <==> present
  {
    var s := head + clause + tail;
    if present {
      assert s == head + marker + (clause[|marker|..] + tail) by {
        assert clause == marker + clause[|marker|..];
      }
      PrefixOfAppend(head + marker, clause[|marker|..] + tail);
    } else {
      assert s == head + tail;
      assert s[|head|] == tail[0];
      assert (head + marker)[|head|] == marker[0];
    }
  }

  /** The middle of a three-part text is recovered by slicing off the other two. */
  lemma MiddleSlice(head: string, middle: string, tail: string)
    ensures (head + middle + tail)[|head|..|head + middle + tail| - |tail|] == middle
  {
    assert head + middle + tail == head + (middle + tail);
  }
}

=== FILE: wrappers.dfy ===
/** Failure-compatible datatypes used throughout the model: `Option` stands for
    a C# reference that may be null, `Result` for a call that either returns a
    value or throws an argument exception. */
module Wrappers {

  /** A value that may be absent (a null reference in the modelled code). */
  datatype Option<+T> = None | Some(value: T)

  /** Either a returned value or the error a guard clause throws. */
  datatype Result<+R, +E> = Success(value: R) | Failure(error: E) {

    predicate IsFailure() {
      Failure?
    }

    function PropagateFailure<U>(): Result<U, E>
      requires Failure?
    {
      Failure(error)
    }

    function Extract(): R
      requires Success?
    {
      value
    }
  }
}
